=== FILE: README.md ===
# GIOS metadata ingestion and working-sensor count, in Dafny

This project models the metadata ingestion and the working-sensor count of
the adb-backend air-quality service:

- **Metadata ingestion** (`GiosAPI` in `app/gios_api.py`). A paginated fetch
  loop pulls every page of the station or sensor listing from the GIOS API.
  `load_stations_to_db` then upserts each station by id. `load_sensors_to_db`
  inserts only the sensors whose ids are not stored yet. Both commit once.
- **The persisted model** (`app/models.py`). It covers the `stations`,
  `sensors` and `measurements` tables and the constraints their columns
  declare. It also covers the `is_active` default of a new sensor and the
  derived `Station.count_working_sensors`.

Everything is a pure function over immutable values:

- The upstream service is a sequence of page responses (`Pagination.Upstream`).
  Each response is either a failure or a body with an optional `totalPages`
  and an optional record list.
- The database is a `Models.Store`: one map per table, from primary key to row.
- A load returns a `GiosApi.Loaded`: the store after the call and the error
  it raised, if any. Nothing is committed when an error is raised, so the
  store is then the one the call started from.
- The commit succeeds exactly when the written table meets its column
  constraints and the foreign key from sensors to stations still resolves.
  - `Models.StationsValid` and `Models.SensorsValid` state the column
    constraints: the primary key, `code` NOT NULL and UNIQUE
    (app/models.py:18-19, 52-53), and the other NOT NULL columns
    (app/models.py:30-31, 55-56).
  - `Models.StationCodesResolve` states the foreign key from
    `sensors.station_code` to `stations.code` (app/models.py:54): a station
    code that is set names a stored station.
  - `Models.SensorIdsResolve` states the foreign key from
    `measurements.sensor_id` to `sensors.id` (app/models.py:79).
  - `Models.Valid` is all of these together with `Models.MeasurementsValid`.
    A measurement's timestamp, value and sensor id are NOT NULL
    (app/models.py:77-79). They are non-optional fields of
    `Models.Measurement`, so that part holds by construction.

Modules: `Wrappers` (Option, Result), `Pagination` (the fetch loop), `Models`
(rows, store, constraints, count), `GiosApi` (the two loaders).

The code compares against the exact string `"automatyczny"`
(app/models.py:42).

## Model

| member | source | states |
|---|---|---|
| Pagination.FetchFrom | app/gios_api.py:20-33 | From loop state (page, max_page) the requests go page, page+1, … with no gap. Every request but the last was answered with a `totalPages` beyond the next page. The last request either ended the loop or failed. A failure names the failed page, and is reported only when that page's request failed. |
| Pagination.Fetch | app/gios_api.py:14-33 | Page 0 is always requested, even when `totalPages` is missing or 0. The requested pages are exactly 0, 1, …, n-1. Pages 0..n-2 each reported more pages than the next index, and page n-1 did not. The fetch fails exactly when the last requested page failed, and then reports that page and no records. |
| Pagination.RequestRule | app/gios_api.py:46-58 | Page p+1 is requested exactly when page p was requested and its answer reported `totalPages` greater than p+1. |
| Pagination.RequestsBounded | app/gios_api.py:20-33 | The loop is bounded by the counts it is told: when no answered page reports more than t ≥ 1 pages, at most t pages are requested. |
| Pagination.UniformTotalRequestsExactly | app/gios_api.py:27 | If every page reports the same `totalPages` T ≥ 1, exactly pages 0..T-1 are requested and the fetch succeeds. |
| Pagination.ResultIsConcatenation | app/gios_api.py:54-56 | A successful fetch returns the concatenation of the requested pages' record lists, in page order (checked against an independent back-to-front definition). |
| Pagination.FetchFromCongruent | app/gios_api.py:27-31 | The run depends only on each page's failure, its reported count (default 1) and its record list (default empty). |
| Pagination.MissingListIsEmptyList | app/gios_api.py:29-31 | A page without the list key behaves exactly like a page with an empty list. |
| Models.NewSensor | app/models.py:61 | A sensor built without `is_active` gets False and is never counted as working. |
| Models.CountWorkingSensors | app/models.py:37-43 | The count is at most the number of sensors, and 0 when there are none. |
| Models.CountIsNumberOfWorking | app/models.py:39-43 | The count equals the number of positions whose sensor has `is_active` true and type exactly "automatyczny". |
| Models.CountAppend | app/models.py:39-43 | The count of two concatenated sensor lists is the sum of their counts. |
| Models.CountAfterInsert | app/models.py:42 | Adding a sensor anywhere raises the count by one exactly when it is active and "automatyczny". A sensor with `is_active` False or None, or with any other type (None included), leaves the count unchanged. |
| Models.CountIgnoresOrder | app/models.py:33-43 | Two sensor lists with the same multiset of sensors have the same count. |
| GiosApi.ParseOptional | app/gios_api.py:73-77 | The date is None exactly when the field is missing or empty. Otherwise it is the parsed value, or the call raises when parsing fails. |
| GiosApi.BuildStation | app/gios_api.py:69-91 | A station row can be built exactly when "Nr" is usable and every filled date and coordinate parses; a missing "Nr" raises first. The row's id is "Nr", its text columns are copied, and each date and coordinate is None exactly when its field is unfilled. |
| GiosApi.BuildStations | app/gios_api.py:68-91 | Either every record gives a row, in order, or the call raises the error of the first record that cannot be built. |
| GiosApi.UpsertStations | app/gios_api.py:92 | After merging rows by id, the table's ids are the old ids plus the rows' ids. Ids no row mentions keep their old row. |
| GiosApi.UpsertLastWins | app/gios_api.py:68-92 | For each id, the table holds the last row written with that id. |
| GiosApi.UpsertIsUnion | app/gios_api.py:92 | Merging rows into a table gives the same result as laying the merged rows, taken alone, over the table. |
| GiosApi.UpsertStationsIdempotent | app/gios_api.py:92 | Merging the same rows a second time changes nothing. |
| GiosApi.LoadStationsToDb | app/gios_api.py:63-93 | A failed page aborts and leaves the store unchanged, and so does any raised error. Sensors and measurements are never touched. On success every record built, the station ids are the old ids plus the fetched ids, and unfetched ids keep their rows. A valid store stays valid. After a successful fetch, a record that cannot be built raises that record's error, and otherwise the load succeeds exactly when the table overlaid with the built rows meets the constraints and every stored sensor's station code still names a station. |
| GiosApi.UpsertTakesRow | app/gios_api.py:68-92 | After the merge, every fetched id's row is one of the rows written. |
| GiosApi.ReferencedCodeRemovedAborts | app/gios_api.py:63-93 | Under the foreign key of app/models.py:54, a station load that takes away a code a stored sensor refers to (every station with that code is refetched and no fetched record carries it) raises and leaves the store unchanged. |
| GiosApi.LoadedStationIsLastRecord | app/gios_api.py:68-93 | After a successful load, each fetched id's row is the one built from the last record fetched with that id. |
| GiosApi.LoadStationsIdempotent | app/gios_api.py:63-93 | Loading the same station listing twice leaves the store as the first load left it. |
| GiosApi.BuildSensor | app/gios_api.py:106-124 | A sensor row can be built exactly when each filled date parses. Its text columns are copied, its dates are None exactly when unfilled, and `is_active` takes its default, so the new row is not working. |
| GiosApi.InsertSensorRecord | app/gios_api.py:100-125 | One loop pass succeeds exactly when "Nr" is usable and the id is stored or both filled dates parse. It raises `BadId` for an unusable "Nr" and `BadDate` otherwise. On success the table gains the record's id, other ids keep their rows, a stored id leaves the table as it was, and a new id's row is built from the record. |
| GiosApi.InsertAbsentSensors | app/gios_api.py:100-125 | After the loop, the ids are the pre-call ids plus the fetched ids. Every sensor stored before the call is unchanged. |
| GiosApi.InsertAbsentSensorsRaises | app/gios_api.py:100-124 | The loop raises exactly when some record has an unusable "Nr", or has a new id and an unparseable date. A stored sensor's record never raises on its dates. |
| GiosApi.InsertedSensorsFromRecords | app/gios_api.py:106-125 | Every added sensor comes from a fetched record with its id, is built from it, and has `is_active` at its default. |
| GiosApi.InsertedSensorOfUniqueRecord | app/gios_api.py:106-125 | A new id carried by exactly one fetched record is stored as exactly the row built from that record. |
| GiosApi.InsertAbsentSensorsSkipsStored | app/gios_api.py:102-104 | When every fetched id is already stored, the loop writes nothing. |
| GiosApi.LoadSensorsToDb | app/gios_api.py:95-127 | A failed page aborts and leaves the store unchanged, and so does any raised error. Stations and measurements are never touched. Every sensor stored before the call is left exactly as it was. On success the sensor ids are the old ids plus the fetched ids. A valid store stays valid. After a successful fetch, a failing loop raises its error, and otherwise the load succeeds exactly when the resulting table meets the constraints and every sensor's station code names a stored station. |
| GiosApi.DanglingStationCodeAborts | app/gios_api.py:95-127 | Under the foreign key of app/models.py:54, a new sensor whose station code names no stored station makes the sensor load raise and leave the store unchanged: sensors cannot be loaded before their station. |
| GiosApi.LoadedSensorsAreNew | app/gios_api.py:106-125 | After a successful load, every new sensor has `is_active` False, is not working, and is built from a fetched record with its id. |
| GiosApi.LoadSensorsIdempotent | app/gios_api.py:95-127 | Loading the same sensor listing twice leaves the store as the first load left it. |

## Left out

- HTTP (`requests.get`, `raise_for_status`, `response.json()`): each page request is one element of the upstream sequence, either answered with a body or failed.
- A null or text `totalPages` raises `TypeError` in the source (app/gios_api.py:27, 53). This is not modelled, and neither is a number that is not an integer (a float or a bool, with which the loop still runs): `totalPages` is an optional integer.
- The record list, when its key is present, is assumed to hold a list. A key present with a null value makes `list.extend(None)` raise `TypeError` in the source (app/gios_api.py:29-31, 54-56). This is not modelled: `Pagination.Page.items` is an optional list.
- The upstream serves finitely many pages, and a request past the end fails. This is how the loop's termination is expressed. The source would loop forever against a service whose every page reported one more page. The model cannot express that run.
- `sleep(31)` and the `print` logging: they have no effect on the data.
- Date parsing (`strptime(..., "%Y-%m-%d")`) and coordinate parsing (`float`) are abstract partial functions, passed in `GiosApi.Parsers`. Raw values are kept as text, so "filled" means present and non-empty. A non-text JSON value such as the number 0 is not modelled.
- `int(s.get("Nr"))` is modelled by `nr: Option<int>`, where None means missing or not convertible. How the conversion works is not modelled.
- Constraint checking is modelled on the final state of the written table. The order of the statements SQLAlchemy emits at flush time is not modelled, so a UNIQUE violation that exists only between two of those statements is not represented. A foreign-key violation that exists only between two statements is not represented either, for example a station's code that one merge gives up and a later merge in the same batch takes.
- GiosApi.LoadedStationIsLastRecord: for an id not yet stored and repeated within one fetched batch, the model assumes last-write-wins, as for a stored id. With `autoflush=False` (app/database.py:23) the session might instead create two pending rows and fail at commit. That behaviour is not visible in these files.
- GiosApi.LoadStationsToDb: the clause saying exactly when the commit succeeds carries the same last-write-wins assumption for a new id repeated within one batch. The real session might reject such a commit even when the clause says it succeeds.
- GiosApi.InsertedSensorsFromRecords: for an id not yet stored and repeated within one fetched batch, the contract says only that the stored row comes from some record with that id. It does not say which record. The existence check reads the pre-call table, because with autoflush off the query does not see rows added earlier in the same loop. So every such record reaches `db.merge` (app/gios_api.py:102-125).
- GiosApi.LoadSensorsToDb: for a new id repeated within one fetched batch, the model keeps the last record's row, and the commit succeeds exactly when that table meets the constraints. This is an assumption: with `autoflush=False` the session might instead hold two pending rows and reject the commit. That behaviour is not visible in these files.
- `Station.sensors` is the relationship collection. The count works over that collection taken as a list. How the ORM loads it (by `station_code`) is not modelled.
- The liveness prober, the measurement ingestor and the periodic polling loop: none of them exists in these files.
- `app/router.py` (HTTP handlers, table clearing and dropping), `app/admin.py` and `app/views.py` (admin UI and stub auth), `app/config.py`, the engine connect-retry loop in `app/database.py`, `app/utils.py` (email), `app/schemes.py` (DTOs), `app/main.py`: framework glue with no logic of the core.

=== FILE: gios_api.dfy ===
/**
 * `GiosAPI.load_stations_to_db` and `GiosAPI.load_sensors_to_db`: fetch every
 * page of a metadata listing, turn each record into a row, write the rows,
 * and commit once.
 *
 * The database session is a value here. A call yields the store after the
 * call and the error it raised, if any; a raised error means nothing was
 * committed, so the store is the one the call started from. The commit
 * succeeds exactly when the written table meets its column constraints and
 * the foreign key from sensors to stations still resolves.
 *
 * `load_stations_to_db` builds and merges each record in turn; since a raised
 * error rolls everything back, rows are built first (stopping at the first
 * error, as the loop does) and then written in order.
 */
module GiosApi {
  import opened Wrappers
  import opened Pagination
  import opened Models

  /**
   * One record of the stations listing. `nr` is None when "Nr" is missing or
   * `int` cannot convert it; every other key's value is kept as its text.
   */
  datatype StationRecord = StationRecord(
    nr: Option<int>,
    code: Option<string>,
    name: Option<string>,
    startDate: Option<string>,
    endDate: Option<string>,
    stationType: Option<string>,
    areaType: Option<string>,
    stationKind: Option<string>,
    voivodeship: Option<string>,
    city: Option<string>,
    address: Option<string>,
    latitude: Option<string>,
    longitude: Option<string>)

  /** One record of the sensors listing, in the same form. */
  datatype SensorRecord = SensorRecord(
    nr: Option<int>,
    code: Option<string>,
    stationCode: Option<string>,
    indicatorCode: Option<string>,
    indicatorName: Option<string>,
    averagingTime: Option<string>,
    measurementType: Option<string>,
    startDate: Option<string>,
    endDate: Option<string>)

  /** What a load can raise: a failed page request, an unusable "Nr", an unparseable date or coordinate, a violated constraint at commit. */
  datatype LoadError = FetchFailed(page: nat) | BadId | BadDate | BadCoordinate | ConstraintViolated

  /** The text-to-value conversions (`strptime(..., "%Y-%m-%d").date()` and `float`), each partial. */
  datatype Parsers = Parsers(date: string -> Option<Date>, coordinate: string -> Option<real>)

  /** The store after a load, and the error the load raised, if any. */
  datatype Loaded = Loaded(store: Store, raised: Option<LoadError>)

  // ---------------------------------------------------------------------------
  // Optional fields
  // ---------------------------------------------------------------------------

  /** Whether a record's text field is truthy in Python: present, not null, not empty. */
  predicate Filled(field: Option<string>)
  {
    field.Some? && field.value != ""
  }

  /** A field a row can be built from: unfilled, or filled with text the conversion accepts. */
  predicate Parses<V>(field: Option<string>, parse: string -> Option<V>)
  {
    !Filled(field) || parse(field.value).Some?
  }

  /** `v` is the column value for `field`: None when the field is unfilled, the converted text otherwise. */
  ghost predicate OptionalFrom<V>(field: Option<string>, parse: string -> Option<V>, v: Option<V>)
  {
    if Filled(field) then v.Some? && v == parse(field.value) else v.None?
  }

  /**
   * The conditional conversion of an optional field. An unfilled field gives
   * None without calling the conversion; a filled one gives its value, or
   * raises `bad` when the conversion rejects it.
   */
  function ParseOptional<V>(field: Option<string>, parse: string -> Option<V>, bad: LoadError): (r: Result<Option<V>, LoadError>)
    ensures r.Success? <==> Parses(field, parse)
    ensures r.Success? ==> OptionalFrom(field, parse, r.value)
    ensures r.Success? ==> (r.value.None? <==> !Filled(field))
    ensures r.Failure? ==> r.error == bad
  {
    if field.Some? && field.value != "" then
      match parse(field.value)
      case Some(v) => Success(Some(v))
      case None => Failure(bad)
    else
      Success(None)
  }

  // ---------------------------------------------------------------------------
  // Stations
  // ---------------------------------------------------------------------------

  /** `st` is the row built from `rec`: its id, text columns copied, dates and coordinates as `OptionalFrom` says. */
  ghost predicate StationFrom(rec: StationRecord, parsers: Parsers, st: Station)
  {
    && rec.nr == Some(st.id)
    && st.code == rec.code && st.name == rec.name
    && st.stationType == rec.stationType && st.areaType == rec.areaType
    && st.stationKind == rec.stationKind && st.voivodeship == rec.voivodeship
    && st.city == rec.city && st.address == rec.address
    && OptionalFrom(rec.startDate, parsers.date, st.startDate)
    && OptionalFrom(rec.endDate, parsers.date, st.endDate)
    && OptionalFrom(rec.latitude, parsers.coordinate, st.latitude)
    && OptionalFrom(rec.longitude, parsers.coordinate, st.longitude)
  }

  /** The `Station(...)` built from one record; the first unusable field raises. */
  function BuildStation(rec: StationRecord, parsers: Parsers): (r: Result<Station, LoadError>)
    ensures r.Success? <==>
              && rec.nr.Some?
              && Parses(rec.startDate, parsers.date) && Parses(rec.endDate, parsers.date)
              && Parses(rec.latitude, parsers.coordinate) && Parses(rec.longitude, parsers.coordinate)
    ensures r.Success? ==> StationFrom(rec, parsers, r.value)
    ensures rec.nr.None? ==> r == Failure(BadId)
  {
    if rec.nr.None? then Failure(BadId)
    else
      var start :- ParseOptional(rec.startDate, parsers.date, BadDate);
      var end :- ParseOptional(rec.endDate, parsers.date, BadDate);
      var lat :- ParseOptional(rec.latitude, parsers.coordinate, BadCoordinate);
      var lon :- ParseOptional(rec.longitude, parsers.coordinate, BadCoordinate);
      Success(Station(rec.nr.value, rec.code, rec.name, start, end, rec.stationType, rec.areaType,
                      rec.stationKind, rec.voivodeship, rec.city, rec.address, lat, lon))
  }

  /** The rows built from every record, in order, or the error of the first record that cannot be built. */
  function BuildStations(records: seq<StationRecord>, parsers: Parsers): (r: Result<seq<Station>, LoadError>)
    ensures r.Success? <==> forall i | 0 <= i < |records| :: BuildStation(records[i], parsers).Success?
    ensures r.Success? ==> |r.value| == |records|
    ensures r.Success? ==> forall i | 0 <= i < |records| :: BuildStation(records[i], parsers) == Success(r.value[i])
    ensures r.Failure? ==>
              exists i | 0 <= i < |records| ::
                && BuildStation(records[i], parsers) == Failure(r.error)
                && forall j | 0 <= j < i :: BuildStation(records[j], parsers).Success?
    decreases |records|
  {
    if |records| == 0 then Success([])
    else
      var n := |records| - 1;
      var rows :- BuildStations(records[..n], parsers);
      var st :- BuildStation(records[n], parsers);
      Success(rows + [st])
  }

  /** The ids of a sequence of station rows. */
  function StationIds(rows: seq<Station>): set<int>
  {
    set i | 0 <= i < |rows| :: rows[i].id
  }

  /** No row after position i has the id of row i. */
  ghost predicate LastStationFor(rows: seq<Station>, i: int)
    requires 0 <= i < |rows|
  {
    forall j | i < j < |rows| :: rows[j].id != rows[i].id
  }

  /** Splitting off the last row splits off its id. */
  lemma StationIdsSnoc(rows: seq<Station>)
    requires |rows| > 0
    ensures StationIds(rows) == StationIds(rows[..|rows| - 1]) + {rows[|rows| - 1].id}
  {
  }

  /**
   * `db.merge(station)` for each row in order: an upsert by id. Every row's id
   * ends up in the table; ids no row mentions keep their row.
   */
  function UpsertStations(table: map<int, Station>, rows: seq<Station>): (r: map<int, Station>)
    ensures r.Keys == table.Keys + StationIds(rows)
    ensures forall id | id in table && id !in StationIds(rows) :: r[id] == table[id]
    decreases |rows|
  {
    if |rows| == 0 then table
    else
      var n := |rows| - 1;
      StationIdsSnoc(rows);
      UpsertStations(table, rows[..n])[rows[n].id := rows[n]]
  }

  /** The table holds, for each row's id, the last row written with that id. */
  lemma {:induction false} UpsertLastWins(table: map<int, Station>, rows: seq<Station>, i: nat)
    requires i < |rows| && LastStationFor(rows, i)
    ensures UpsertStations(table, rows)[rows[i].id] == rows[i]
    decreases |rows|
  {
    var n := |rows| - 1;
    if i < n {
      assert rows[n].id != rows[i].id;
      assert LastStationFor(rows[..n], i);
      UpsertLastWins(table, rows[..n], i);
    }
  }

  /** Writing the same rows a second time changes nothing. */
  lemma {:induction false} UpsertStationsIdempotent(table: map<int, Station>, rows: seq<Station>)
    ensures UpsertStations(UpsertStations(table, rows), rows) == UpsertStations(table, rows)
  {
    UpsertIsUnion(table, rows);
    UpsertIsUnion(UpsertStations(table, rows), rows);
    var u := UpsertStations(map[], rows);
    assert (table + u) + u == table + u;
  }

  /** The upsert overlays the rows, written into an empty table, on the table. */
  lemma {:induction false} UpsertIsUnion(table: map<int, Station>, rows: seq<Station>)
    ensures UpsertStations(table, rows) == table + UpsertStations(map[], rows)
    decreases |rows|
  {
    if |rows| > 0 {
      var n := |rows| - 1;
      UpsertIsUnion(table, rows[..n]);
      var u := UpsertStations(map[], rows[..n]);
      assert (table + u)[rows[n].id := rows[n]] == table + u[rows[n].id := rows[n]];
    } else {
      assert table + map[] == table;
    }
  }

  /** The ids of the records that have one. */
  function StationRecordIds(records: seq<StationRecord>): set<int>
  {
    set i | 0 <= i < |records| && records[i].nr.Some? :: records[i].nr.value
  }

  /** `load_stations_to_db`: fetch every page of stations, upsert each record's row by id, commit. */
  function LoadStationsToDb(store: Store, up: Upstream<StationRecord>, parsers: Parsers): (r: Loaded)
    ensures Fetch(up).result.Failure? ==> r == Loaded(store, Some(FetchFailed(Fetch(up).result.error)))
    ensures r.raised.Some? ==> r.store == store
    ensures r.store.sensors == store.sensors && r.store.measurements == store.measurements
    ensures r.raised.None? ==> StationsValid(r.store.stations) && StationCodesResolve(r.store.stations, r.store.sensors)
    ensures Valid(store) ==> Valid(r.store)
    ensures r.raised.None? ==>
              && Fetch(up).result.Success?
              && var records := Fetch(up).result.value;
              && (forall i | 0 <= i < |records| :: BuildStation(records[i], parsers).Success?)
              && r.store.stations.Keys == store.stations.Keys + StationRecordIds(records)
              && (forall id | id in store.stations && id !in StationRecordIds(records) ::
                    r.store.stations[id] == store.stations[id])
    ensures Fetch(up).result.Success? && BuildStations(Fetch(up).result.value, parsers).Failure? ==>
              r.raised == Some(BuildStations(Fetch(up).result.value, parsers).error)
    ensures Fetch(up).result.Success? && BuildStations(Fetch(up).result.value, parsers).Success? ==>
              var table := store.stations + UpsertStations(map[], BuildStations(Fetch(up).result.value, parsers).value);
              (r.raised.None? <==> StationsValid(table) && StationCodesResolve(table, store.sensors))
  {
    match Fetch(up).result
    case Failure(page) => Loaded(store, Some(FetchFailed(page)))
    case Success(records) =>
      match BuildStations(records, parsers)
      case Failure(e) => Loaded(store, Some(e))
      case Success(rows) =>
        assert StationIds(rows) == StationRecordIds(records) by {
          StationIdsMatch(records, parsers, rows);
        }
        UpsertIsUnion(store.stations, rows);
        var table := UpsertStations(store.stations, rows);
        if StationsValid(table) && StationCodesResolve(table, store.sensors) then Loaded(store.(stations := table), None)
        else Loaded(store, Some(ConstraintViolated))
  }

  lemma StationIdsMatch(records: seq<StationRecord>, parsers: Parsers, rows: seq<Station>)
    requires |rows| == |records|
    requires forall i | 0 <= i < |records| :: BuildStation(records[i], parsers) == Success(rows[i])
    ensures StationIds(rows) == StationRecordIds(records)
  {
  }

  /** Every fetched id's entry after the upsert is one of the rows written. */
  lemma {:induction false} UpsertTakesRow(table: map<int, Station>, rows: seq<Station>, id: int)
    requires id in StationIds(rows)
    ensures exists k | 0 <= k < |rows| :: UpsertStations(table, rows)[id] == rows[k]
    decreases |rows|
  {
    var n := |rows| - 1;
    StationIdsSnoc(rows);
    if rows[n].id != id {
      UpsertTakesRow(table, rows[..n], id);
      var k :| 0 <= k < n && UpsertStations(table, rows[..n])[id] == rows[..n][k];
      assert rows[..n][k] == rows[k];
    } else {
      assert UpsertStations(table, rows)[id] == rows[n];
    }
  }

  /**
   * A load that takes a station code away while a stored sensor still refers
   * to it makes the commit fail: every station holding the code is refetched
   * and no fetched record carries it.
   */
  lemma ReferencedCodeRemovedAborts(store: Store, up: Upstream<StationRecord>, parsers: Parsers, sensorId: int, c: string)
    requires sensorId in store.sensors && store.sensors[sensorId].stationCode == Some(c)
    requires Fetch(up).result.Success?
    requires var records := Fetch(up).result.value;
             && (forall i | 0 <= i < |records| :: records[i].code != Some(c))
             && (forall sid | sid in store.stations && store.stations[sid].code == Some(c) :: sid in StationRecordIds(records))
    ensures LoadStationsToDb(store, up, parsers).raised.Some?
    ensures LoadStationsToDb(store, up, parsers).store == store
  {
    var records := Fetch(up).result.value;
    var built := BuildStations(records, parsers);
    if built.Success? {
      var rows := built.value;
      var table := UpsertStations(store.stations, rows);
      StationIdsMatch(records, parsers, rows);
      forall sid | sid in table
        ensures table[sid].code != Some(c)
      {
        if sid in StationIds(rows) {
          UpsertTakesRow(store.stations, rows, sid);
          var k :| 0 <= k < |rows| && table[sid] == rows[k];
          assert StationFrom(records[k], parsers, rows[k]);
        }
      }
      assert !StationCodesResolve(table, store.sensors);
    }
  }

  /**
   * After a successful load, a record that no later record shares an id with
   * is what the store holds for that id: the last record fetched for an id wins.
   */
  lemma LoadedStationIsLastRecord(store: Store, up: Upstream<StationRecord>, parsers: Parsers, i: nat)
    requires LoadStationsToDb(store, up, parsers).raised.None?
    requires Fetch(up).result.Success? && i < |Fetch(up).result.value|
    requires var records := Fetch(up).result.value;
             forall j | i < j < |records| :: records[j].nr != records[i].nr
    ensures var records := Fetch(up).result.value;
            && records[i].nr.Some?
            && BuildStation(records[i], parsers).Success?
            && var st := LoadStationsToDb(store, up, parsers).store.stations[records[i].nr.value];
            && st == BuildStation(records[i], parsers).value
            && StationFrom(records[i], parsers, st)
  {
    var records := Fetch(up).result.value;
    var rows := BuildStations(records, parsers).value;
    forall k | 0 <= k < |records|
      ensures records[k].nr == Some(rows[k].id)
    {
      assert StationFrom(records[k], parsers, rows[k]);
    }
    assert LastStationFor(rows, i);
    UpsertLastWins(store.stations, rows, i);
  }

  /** Loading the same stations twice leaves the store as the first load did. */
  lemma LoadStationsIdempotent(store: Store, up: Upstream<StationRecord>, parsers: Parsers)
    requires LoadStationsToDb(store, up, parsers).raised.None?
    ensures var once := LoadStationsToDb(store, up, parsers);
            LoadStationsToDb(once.store, up, parsers) == once
  {
    var records := Fetch(up).result.value;
    var rows := BuildStations(records, parsers).value;
    UpsertStationsIdempotent(store.stations, rows);
  }

  // ---------------------------------------------------------------------------
  // Sensors
  // ---------------------------------------------------------------------------

  /** `s` is the new row built for `id` from `rec`: text columns copied, dates as `OptionalFrom` says, `is_active` left to its default. */
  ghost predicate SensorFrom(id: int, rec: SensorRecord, parsers: Parsers, s: Sensor)
  {
    && s.id == id
    && s.code == rec.code && s.stationCode == rec.stationCode
    && s.indicatorCode == rec.indicatorCode && s.indicatorName == rec.indicatorName
    && s.averagingTime == rec.averagingTime && s.measurementType == rec.measurementType
    && OptionalFrom(rec.startDate, parsers.date, s.startDate)
    && OptionalFrom(rec.endDate, parsers.date, s.endDate)
    && s.isActive == IsActiveDefault
  }

  /** The `Sensor(...)` built for `id` from one record; an unparseable date raises. */
  function BuildSensor(id: int, rec: SensorRecord, parsers: Parsers): (r: Result<Sensor, LoadError>)
    ensures r.Success? <==> Parses(rec.startDate, parsers.date) && Parses(rec.endDate, parsers.date)
    ensures r.Success? ==> SensorFrom(id, rec, parsers, r.value)
    ensures r.Success? ==> !Working(r.value)
  {
    var start :- ParseOptional(rec.startDate, parsers.date, BadDate);
    var end :- ParseOptional(rec.endDate, parsers.date, BadDate);
    Success(NewSensor(id, rec.code, rec.stationCode, rec.indicatorCode, rec.indicatorName,
                      rec.averagingTime, rec.measurementType, start, end))
  }

  /**
   * Whether processing `rec` raises: its "Nr" is unusable (checked for every
   * record), or its id is new and a date does not parse (a record whose id is
   * already stored is skipped before its dates are read).
   */
  predicate SensorRecordFails(existing: map<int, Sensor>, rec: SensorRecord, parsers: Parsers)
  {
    rec.nr.None? || (rec.nr.value !in existing && !(Parses(rec.startDate, parsers.date) && Parses(rec.endDate, parsers.date)))
  }

  /** The ids of the records that have one. */
  function SensorRecordIds(records: seq<SensorRecord>): set<int>
  {
    set i | 0 <= i < |records| && records[i].nr.Some? :: records[i].nr.value
  }

  /** Splitting off the last record splits off its id, if it has one. */
  lemma SensorRecordIdsSnoc(records: seq<SensorRecord>)
    requires |records| > 0
    ensures var last := records[|records| - 1];
            SensorRecordIds(records)
              == SensorRecordIds(records[..|records| - 1]) + (if last.nr.Some? then {last.nr.value} else {})
  {
  }

  /**
   * The loop of `load_sensors_to_db`. `existing` is the table as stored before
   * the call: the existence query reads the database, and with autoflush off
   * it does not see rows added earlier in the same loop. A record whose id is
   * stored is skipped; any other record's row is written.
   */
  function InsertAbsentSensors(existing: map<int, Sensor>, records: seq<SensorRecord>, parsers: Parsers)
    : (r: Result<map<int, Sensor>, LoadError>)
    ensures r.Success? ==> r.value.Keys == existing.Keys + SensorRecordIds(records)
    ensures r.Success? ==> forall id | id in existing :: r.value[id] == existing[id]
    decreases |records|
  {
    if |records| == 0 then Success(existing)
    else
      var n := |records| - 1;
      var table :- InsertAbsentSensors(existing, records[..n], parsers);
      SensorRecordIdsSnoc(records);
      InsertSensorRecord(existing, table, records[n], parsers)
  }

  /**
   * One pass of the loop body. A record without a usable "Nr" raises `BadId`;
   * a stored id is skipped without its dates being read; a new id whose dates
   * parse gets its row, and otherwise raises `BadDate`. No other id changes.
   */
  function InsertSensorRecord(existing: map<int, Sensor>, table: map<int, Sensor>, rec: SensorRecord, parsers: Parsers)
    : (r: Result<map<int, Sensor>, LoadError>)
    requires existing.Keys <= table.Keys
    ensures r.Success? <==>
              && rec.nr.Some?
              && (rec.nr.value in existing || (Parses(rec.startDate, parsers.date) && Parses(rec.endDate, parsers.date)))
    ensures r.Failure? ==> r.error == (if rec.nr.None? then BadId else BadDate)
    ensures r.Success? ==> r.value.Keys == table.Keys + {rec.nr.value}
    ensures r.Success? ==> forall id | id in table && id != rec.nr.value :: r.value[id] == table[id]
    ensures r.Success? && rec.nr.value in existing ==> r.value == table
    ensures r.Success? && rec.nr.value !in existing ==> SensorFrom(rec.nr.value, rec, parsers, r.value[rec.nr.value])
  {
    if rec.nr.None? then Failure(BadId)
    else if rec.nr.value in existing then Success(table)
    else
      var s :- BuildSensor(rec.nr.value, rec, parsers);
      Success(table[s.id := s])
  }

  /** One pass raises exactly when its record fails. */
  lemma InsertSensorRecordRaises(existing: map<int, Sensor>, table: map<int, Sensor>, rec: SensorRecord, parsers: Parsers)
    requires existing.Keys <= table.Keys
    ensures InsertSensorRecord(existing, table, rec, parsers).Success? <==> !SensorRecordFails(existing, rec, parsers)
  {
  }

  /**
   * The loop raises exactly when some record fails: a record without a usable
   * id, or a record with a new id and an unparseable date. A stored sensor's
   * record is skipped before its dates are read, so those never raise.
   */
  lemma {:induction false} InsertAbsentSensorsRaises(existing: map<int, Sensor>, records: seq<SensorRecord>, parsers: Parsers)
    ensures InsertAbsentSensors(existing, records, parsers).Success?
            <==> forall i | 0 <= i < |records| :: !SensorRecordFails(existing, records[i], parsers)
    decreases |records|
  {
    if |records| > 0 {
      var n := |records| - 1;
      var prefix := records[..n];
      var rec := records[n];
      InsertAbsentSensorsRaises(existing, prefix, parsers);
      if InsertAbsentSensors(existing, prefix, parsers).Failure? {
        var i :| 0 <= i < n && SensorRecordFails(existing, prefix[i], parsers);
        assert prefix[i] == records[i];
      } else {
        var table := InsertAbsentSensors(existing, prefix, parsers).value;
        assert InsertAbsentSensors(existing, records, parsers) == InsertSensorRecord(existing, table, rec, parsers);
        InsertSensorRecordRaises(existing, table, rec, parsers);
        forall i | 0 <= i < n
          ensures !SensorRecordFails(existing, records[i], parsers)
        {
          assert prefix[i] == records[i];
        }
      }
    }
  }

  /** One step of the loop, for a successful run: the last record is skipped when stored, and its row written otherwise. */
  lemma InsertAbsentSensorsStep(existing: map<int, Sensor>, records: seq<SensorRecord>, parsers: Parsers)
    requires |records| > 0
    requires InsertAbsentSensors(existing, records, parsers).Success?
    ensures var n := |records| - 1;
            var rec := records[n];
            && InsertAbsentSensors(existing, records[..n], parsers).Success?
            && rec.nr.Some?
            && var prior := InsertAbsentSensors(existing, records[..n], parsers).value;
               var t := InsertAbsentSensors(existing, records, parsers).value;
               && t.Keys == prior.Keys + {rec.nr.value}
               && (forall id | id in prior && id != rec.nr.value :: t[id] == prior[id])
               && (rec.nr.value !in existing ==> SensorFrom(rec.nr.value, rec, parsers, t[rec.nr.value]))
  {
  }

  /**
   * Every sensor the loop adds comes from a fetched record with its id and
   * has `is_active` at its default.
   */
  lemma {:induction false} InsertedSensorsFromRecords(existing: map<int, Sensor>, records: seq<SensorRecord>, parsers: Parsers)
    requires InsertAbsentSensors(existing, records, parsers).Success?
    ensures var t := InsertAbsentSensors(existing, records, parsers).value;
            forall id | id in t && id !in existing ::
              && t[id].isActive == IsActiveDefault
              && exists i | 0 <= i < |records| :: records[i].nr == Some(id) && SensorFrom(id, records[i], parsers, t[id])
    decreases |records|
  {
    if |records| > 0 {
      var n := |records| - 1;
      var prefix := records[..n];
      InsertAbsentSensorsStep(existing, records, parsers);
      InsertedSensorsFromRecords(existing, prefix, parsers);
      var t := InsertAbsentSensors(existing, records, parsers).value;
      var prior := InsertAbsentSensors(existing, prefix, parsers).value;
      var rec := records[n];
      forall id | id in t && id !in existing
        ensures t[id].isActive == IsActiveDefault
        ensures exists i | 0 <= i < |records| :: records[i].nr == Some(id) && SensorFrom(id, records[i], parsers, t[id])
      {
        if rec.nr == Some(id) {
          assert SensorFrom(id, records[n], parsers, t[id]);
        } else {
          assert t[id] == prior[id];
          var i :| 0 <= i < |prefix| && prefix[i].nr == Some(id) && SensorFrom(id, prefix[i], parsers, prior[id]);
          assert records[i] == prefix[i];
        }
      }
    }
  }

  /** A record determines the row built from it. */
  lemma SensorFromDetermines(id: int, rec: SensorRecord, parsers: Parsers, a: Sensor, b: Sensor)
    requires SensorFrom(id, rec, parsers, a) && SensorFrom(id, rec, parsers, b)
    ensures a == b
  {
  }

  /** A new id that only one fetched record carries is stored as exactly the row built from that record. */
  lemma InsertedSensorOfUniqueRecord(existing: map<int, Sensor>, records: seq<SensorRecord>, parsers: Parsers, i: nat)
    requires InsertAbsentSensors(existing, records, parsers).Success?
    requires i < |records| && records[i].nr.Some? && records[i].nr.value !in existing
    requires forall j | 0 <= j < |records| && j != i :: records[j].nr != records[i].nr
    ensures var t := InsertAbsentSensors(existing, records, parsers).value;
            var built := BuildSensor(records[i].nr.value, records[i], parsers);
            built.Success? && t[records[i].nr.value] == built.value
  {
    var t := InsertAbsentSensors(existing, records, parsers).value;
    var id := records[i].nr.value;
    InsertAbsentSensorsRaises(existing, records, parsers);
    InsertedSensorsFromRecords(existing, records, parsers);
    assert id in SensorRecordIds(records);
    var j :| 0 <= j < |records| && records[j].nr == Some(id) && SensorFrom(id, records[j], parsers, t[id]);
    assert !SensorRecordFails(existing, records[i], parsers);
    SensorFromDetermines(id, records[i], parsers, t[id], BuildSensor(id, records[i], parsers).value);
  }

  /** Once every fetched id is stored, the loop skips every record and writes nothing. */
  lemma {:induction false} InsertAbsentSensorsSkipsStored(existing: map<int, Sensor>, records: seq<SensorRecord>, parsers: Parsers)
    requires forall i | 0 <= i < |records| :: records[i].nr.Some? && records[i].nr.value in existing
    ensures InsertAbsentSensors(existing, records, parsers) == Success(existing)
    decreases |records|
  {
    if |records| > 0 {
      InsertAbsentSensorsSkipsStored(existing, records[..|records| - 1], parsers);
    }
  }

  /** `load_sensors_to_db`: fetch every page of sensors, insert the rows whose ids are not stored yet, commit. */
  function LoadSensorsToDb(store: Store, up: Upstream<SensorRecord>, parsers: Parsers): (r: Loaded)
    ensures Fetch(up).result.Failure? ==> r == Loaded(store, Some(FetchFailed(Fetch(up).result.error)))
    ensures r.raised.Some? ==> r.store == store
    ensures r.store.stations == store.stations && r.store.measurements == store.measurements
    ensures r.raised.None? ==> SensorsValid(r.store.sensors) && StationCodesResolve(r.store.stations, r.store.sensors)
    ensures Valid(store) ==> Valid(r.store)
    ensures forall id | id in store.sensors :: id in r.store.sensors && r.store.sensors[id] == store.sensors[id]
    ensures r.raised.None? ==>
              && Fetch(up).result.Success?
              && var records := Fetch(up).result.value;
              && (forall i | 0 <= i < |records| :: !SensorRecordFails(store.sensors, records[i], parsers))
              && r.store.sensors.Keys == store.sensors.Keys + SensorRecordIds(records)
    ensures Fetch(up).result.Success? ==>
              var t := InsertAbsentSensors(store.sensors, Fetch(up).result.value, parsers);
              && (t.Failure? ==> r.raised == Some(t.error))
              && (t.Success? ==> (r.raised.None? <==> SensorsValid(t.value) && StationCodesResolve(store.stations, t.value)))
  {
    match Fetch(up).result
    case Failure(page) => Loaded(store, Some(FetchFailed(page)))
    case Success(records) =>
      InsertAbsentSensorsRaises(store.sensors, records, parsers);
      match InsertAbsentSensors(store.sensors, records, parsers)
      case Failure(e) => Loaded(store, Some(e))
      case Success(table) =>
        if SensorsValid(table) && StationCodesResolve(store.stations, table) then Loaded(store.(sensors := table), None)
        else Loaded(store, Some(ConstraintViolated))
  }

  /**
   * A new sensor whose station code names no stored station makes the commit
   * fail: sensors cannot be loaded before their station.
   */
  lemma DanglingStationCodeAborts(store: Store, up: Upstream<SensorRecord>, parsers: Parsers, i: nat)
    requires Fetch(up).result.Success? && i < |Fetch(up).result.value|
    requires var records := Fetch(up).result.value;
             && records[i].nr.Some? && records[i].nr.value !in store.sensors
             && (forall j | 0 <= j < |records| && j != i :: records[j].nr != records[i].nr)
             && records[i].stationCode.Some?
             && (forall sid | sid in store.stations :: store.stations[sid].code != records[i].stationCode)
    ensures LoadSensorsToDb(store, up, parsers).raised.Some?
    ensures LoadSensorsToDb(store, up, parsers).store == store
  {
    var records := Fetch(up).result.value;
    var t := InsertAbsentSensors(store.sensors, records, parsers);
    if t.Success? {
      var id := records[i].nr.value;
      InsertedSensorOfUniqueRecord(store.sensors, records, parsers, i);
      assert t.value[id].stationCode == records[i].stationCode;
      assert !StationCodesResolve(store.stations, t.value);
    }
  }

  /**
   * After a successful load every sensor not stored before comes from a
   * fetched record with its id, built from it, with `is_active` at its default
   * (so it does not count as working).
   */
  lemma LoadedSensorsAreNew(store: Store, up: Upstream<SensorRecord>, parsers: Parsers)
    requires LoadSensorsToDb(store, up, parsers).raised.None?
    ensures var t := LoadSensorsToDb(store, up, parsers).store.sensors;
            var records := Fetch(up).result.value;
            forall id | id in t && id !in store.sensors ::
              && t[id].isActive == Some(false)
              && !Working(t[id])
              && exists i | 0 <= i < |records| :: records[i].nr == Some(id) && SensorFrom(id, records[i], parsers, t[id])
  {
    InsertedSensorsFromRecords(store.sensors, Fetch(up).result.value, parsers);
  }

  /** Loading the same sensors twice: the second load skips every record and leaves the store as the first left it. */
  lemma LoadSensorsIdempotent(store: Store, up: Upstream<SensorRecord>, parsers: Parsers)
    requires LoadSensorsToDb(store, up, parsers).raised.None?
    ensures var once := LoadSensorsToDb(store, up, parsers);
            LoadSensorsToDb(once.store, up, parsers) == once
  {
    var once := LoadSensorsToDb(store, up, parsers);
    var records := Fetch(up).result.value;
    forall i | 0 <= i < |records|
      ensures records[i].nr.Some? && records[i].nr.value in once.store.sensors
    {
      assert !SensorRecordFails(store.sensors, records[i], parsers);
    }
    InsertAbsentSensorsSkipsStored(once.store.sensors, records, parsers);
  }
}

=== FILE: models.dfy ===
/**
 * The three persisted tables (`stations`, `sensors`, `measurements`), the
 * constraints their column declarations impose, the defaults a new sensor
 * row gets, and the derived `Station.count_working_sensors`.
 */
module Models {
  import opened Wrappers

  /** A calendar date (a `Date` column). */
  datatype Date = Date(year: int, month: int, day: int)

  /** A point in time (a `DateTime` column). */
  datatype Timestamp = Timestamp(date: Date, secondOfDay: int)

  /** A row of `stations`. Every column but the primary key is optional here; `StationsValid` says which may not be null. */
  datatype Station = Station(
    id: int,
    code: Option<string>,
    name: Option<string>,
    startDate: Option<Date>,
    endDate: Option<Date>,
    stationType: Option<string>,
    areaType: Option<string>,
    stationKind: Option<string>,
    voivodeship: Option<string>,
    city: Option<string>,
    address: Option<string>,
    latitude: Option<real>,
    longitude: Option<real>)

  /** A row of `sensors`; `isActive` is a nullable boolean. */
  datatype Sensor = Sensor(
    id: int,
    code: Option<string>,
    stationCode: Option<string>,
    indicatorCode: Option<string>,
    indicatorName: Option<string>,
    averagingTime: Option<string>,
    measurementType: Option<string>,
    startDate: Option<Date>,
    endDate: Option<Date>,
    isActive: Option<bool>)

  /** A row of `measurements`. Its timestamp, value and sensor reference are NOT NULL, so none of them is optional. */
  datatype Measurement = Measurement(id: int, timestamp: Timestamp, value: real, sensorId: int)

  /** The database: each table keyed by its integer primary key. */
  datatype Store = Store(
    stations: map<int, Station>,
    sensors: map<int, Sensor>,
    measurements: map<int, Measurement>)

  /** Constraints of `stations`: the key is the row's id, `code` is NOT NULL and UNIQUE, and both coordinates are NOT NULL. */
  predicate StationsValid(t: map<int, Station>)
  {
    && (forall id | id in t :: t[id].id == id && t[id].code.Some? && t[id].latitude.Some? && t[id].longitude.Some?)
    && (forall a, b | a in t && b in t && a != b :: t[a].code != t[b].code)
  }

  /** Constraints of `sensors`: the key is the row's id, `code`, `indicator_code` and `indicator_name` are NOT NULL, and `code` is UNIQUE. */
  predicate SensorsValid(t: map<int, Sensor>)
  {
    && (forall id | id in t :: t[id].id == id && t[id].code.Some? && t[id].indicatorCode.Some? && t[id].indicatorName.Some?)
    && (forall a, b | a in t && b in t && a != b :: t[a].code != t[b].code)
  }

  /** Constraints of `measurements`: the key is the row's id (the other NOT NULL columns are non-optional fields). */
  predicate MeasurementsValid(t: map<int, Measurement>)
  {
    forall id | id in t :: t[id].id == id
  }

  /** The foreign key from `sensors.station_code` to `stations.code`: a station code that is set names a stored station. */
  predicate StationCodesResolve(stations: map<int, Station>, sensors: map<int, Sensor>)
  {
    forall id | id in sensors && sensors[id].stationCode.Some? ::
      exists sid | sid in stations :: stations[sid].code == sensors[id].stationCode
  }

  /** The foreign key from `measurements.sensor_id` to `sensors.id`. */
  predicate SensorIdsResolve(sensors: map<int, Sensor>, measurements: map<int, Measurement>)
  {
    forall id | id in measurements :: measurements[id].sensorId in sensors
  }

  /** Every column constraint and both foreign keys hold. */
  predicate Valid(s: Store)
  {
    && StationsValid(s.stations) && SensorsValid(s.sensors) && MeasurementsValid(s.measurements)
    && StationCodesResolve(s.stations, s.sensors)
    && SensorIdsResolve(s.sensors, s.measurements)
  }

  /** The measurement type a working sensor must have. */
  const Automatic: string := "automatyczny"

  /** The value `is_active` takes when a row is inserted without it. */
  const IsActiveDefault: Option<bool> := Some(false)

  /**
   * A new `Sensor` built without `is_active`: the column default applies, so
   * the sensor does not count as working whatever its other fields say.
   */
  function NewSensor(
    id: int,
    code: Option<string>,
    stationCode: Option<string>,
    indicatorCode: Option<string>,
    indicatorName: Option<string>,
    averagingTime: Option<string>,
    measurementType: Option<string>,
    startDate: Option<Date>,
    endDate: Option<Date>): (s: Sensor)
    ensures s.id == id && s.code == code && s.stationCode == stationCode
    ensures s.isActive == Some(false)
    ensures !Working(s)
  {
    Sensor(id, code, stationCode, indicatorCode, indicatorName, averagingTime,
           measurementType, startDate, endDate, IsActiveDefault)
  }

  /** A sensor counts as working when `is_active` is truthy (true, not false or null) and its type is exactly "automatyczny". */
  predicate Working(s: Sensor)
  {
    s.isActive == Some(true) && s.measurementType == Some(Automatic)
  }

  /** `Station.count_working_sensors` over the station's sensor list. */
  function CountWorkingSensors(sensors: seq<Sensor>): (n: nat)
    ensures n <= |sensors|
  {
    if |sensors| == 0 then 0
    else
      var last := sensors[|sensors| - 1];
      CountWorkingSensors(sensors[..|sensors| - 1]) + (if Working(last) then 1 else 0)
  }

  /** Reference definition: the positions of the working sensors in the list. */
  function WorkingIndices(sensors: seq<Sensor>): set<nat>
  {
    set i: nat | i < |sensors| && Working(sensors[i])
  }

  /** The count is the number of sensors that are active and automatic. */
  lemma {:induction false} CountIsNumberOfWorking(sensors: seq<Sensor>)
    ensures CountWorkingSensors(sensors) == |WorkingIndices(sensors)|
  {
    if |sensors| == 0 {
      assert WorkingIndices(sensors) == {};
    } else {
      var n := |sensors| - 1;
      var prefix := sensors[..n];
      CountIsNumberOfWorking(prefix);
      if Working(sensors[n]) {
        assert WorkingIndices(sensors) == WorkingIndices(prefix) + {n};
      } else {
        assert WorkingIndices(sensors) == WorkingIndices(prefix);
      }
    }
  }

  /** The count of a concatenation is the sum of the counts. */
  lemma {:induction false} CountAppend(a: seq<Sensor>, b: seq<Sensor>)
    ensures CountWorkingSensors(a + b) == CountWorkingSensors(a) + CountWorkingSensors(b)
    decreases |b|
  {
    if |b| == 0 {
      assert a + b == a;
    } else {
      var n := |b| - 1;
      assert (a + b)[..|a + b| - 1] == a + b[..n];
      CountAppend(a, b[..n]);
    }
  }

  /**
   * Adding a sensor anywhere in the list raises the count by one exactly when
   * it is active and automatic; a sensor whose `is_active` is false or null,
   * or whose type is anything but "automatyczny" (null included), leaves it
   * unchanged.
   */
  lemma CountAfterInsert(before: seq<Sensor>, s: Sensor, after: seq<Sensor>)
    ensures CountWorkingSensors(before + [s] + after)
         == CountWorkingSensors(before + after)
            + (if s.isActive == Some(true) && s.measurementType == Some("automatyczny") then 1 else 0)
  {
    CountAppend(before + [s], after);
    CountAppend(before, [s]);
    CountAppend(before, after);
    assert [s][..0] == [];
  }

  /** Taking the same sensor out of two lists with equal multisets leaves lists with equal multisets. */
  lemma RemoveFromBoth(prefix: seq<Sensor>, s: Sensor, b: seq<Sensor>, j: nat)
    requires j < |b| && b[j] == s
    requires multiset(prefix + [s]) == multiset(b)
    ensures multiset(prefix) == multiset(b[..j] + b[j + 1..])
  {
    var rest := b[..j] + b[j + 1..];
    assert b == b[..j] + [s] + b[j + 1..];
    calc {
      multiset(prefix) + multiset([s]);
      multiset(prefix + [s]);
      multiset(b[..j] + [s] + b[j + 1..]);
      multiset(b[..j]) + multiset([s]) + multiset(b[j + 1..]);
      multiset(rest) + multiset([s]);
    }
    forall x
      ensures multiset(prefix)[x] == multiset(rest)[x]
    {
      assert (multiset(prefix) + multiset([s]))[x] == (multiset(rest) + multiset([s]))[x];
    }
  }

  /** The count does not depend on the order of the station's sensors. */
  lemma {:induction false} CountIgnoresOrder(a: seq<Sensor>, b: seq<Sensor>)
    requires multiset(a) == multiset(b)
    ensures CountWorkingSensors(a) == CountWorkingSensors(b)
    decreases |a|
  {
    if |a| == 0 {
      assert |b| == |multiset(b)| == 0;
    } else {
      var n := |a| - 1;
      var s := a[n];
      assert a == a[..n] + [s];
      assert s in multiset(b);
      var j :| 0 <= j < |b| && b[j] == s;
      RemoveFromBoth(a[..n], s, b, j);
      CountIgnoresOrder(a[..n], b[..j] + b[j + 1..]);
      CountAfterInsert(b[..j], s, b[j + 1..]);
      assert b == b[..j] + [s] + b[j + 1..];
    }
  }
}

=== FILE: pagination.dfy ===
/**
 * The paginated metadata fetch of `GiosAPI.fetch_sensors_data` and
 * `GiosAPI.fetch_stations_data`. Both run the same loop: start at page 0
 * with a bound of 1, request the page, re-read the bound from the body's
 * `totalPages` (default 1) minus one, append the body's record list (default
 * empty), and move to the next page while the page number does not exceed the
 * bound. A failed request raises out of the loop, so nothing is returned.
 *
 * The two functions differ only in the key the record list sits under and in
 * where they sleep; a `Page` here already holds the list found under the key.
 */
module Pagination {
  import opened Wrappers

  /** The decoded body of one page: the reported `totalPages`, if present, and the record list, if its key is present. */
  datatype Page<T> = Page(totalPages: Option<int>, items: Option<seq<T>>)

  /** What one page request yields: a body, or a failure (transport error, non-2xx status, undecodable body). */
  datatype Response<T> = Ok(body: Page<T>) | Failed

  /**
   * The upstream service as the responses that requests for page 0, 1, 2, ...
   * receive. It serves finitely many pages: a request past the end fails.
   */
  type Upstream<T> = seq<Response<T>>

  function ResponseAt<T>(up: Upstream<T>, k: nat): Response<T>
  {
    if k < |up| then up[k] else Failed
  }

  /** The page count a body reports; a body without `totalPages` counts as reporting 1. */
  function ReportedTotal<T>(p: Page<T>): int
  {
    p.totalPages.GetOr(1)
  }

  /** The records a body contributes; a body without the list key contributes none. */
  function Items<T>(p: Page<T>): seq<T>
  {
    p.items.GetOr([])
  }

  /** Page k was answered and reports a page count greater than k + 1: the request for page k + 1 must follow. */
  predicate Continues<T>(up: Upstream<T>, k: nat)
  {
    ResponseAt(up, k).Ok? && ReportedTotal(ResponseAt(up, k).body) > k + 1
  }

  /** One run of the loop: the pages requested, in order, and either every record fetched or the page whose request failed. */
  datatype Run<T> = Run(requested: seq<nat>, result: Result<seq<T>, nat>)

  /**
   * The loop from the state (`page`, `maxPage`) on. The i-th request is for
   * page `page + i`; every request but the last was answered with a bound
   * that lets the loop go on, and the last either failed or ended the loop.
   */
  function FetchFrom<T>(up: Upstream<T>, page: nat, maxPage: int): (r: Run<T>)
    ensures |r.requested| == 0 <==> page > maxPage
    ensures forall i :: 0 <= i < |r.requested| ==> r.requested[i] == page + i
    ensures forall i :: 0 <= i < |r.requested| - 1 ==> Continues(up, r.requested[i])
    ensures |r.requested| > 0 ==> !Continues(up, r.requested[|r.requested| - 1])
    ensures r.result.Success? ==> forall i :: 0 <= i < |r.requested| ==> ResponseAt(up, r.requested[i]).Ok?
    ensures r.result.Failure? ==>
              && |r.requested| > 0
              && r.result.error == r.requested[|r.requested| - 1]
              && ResponseAt(up, r.result.error).Failed?
    decreases |up| - page
  {
    if page > maxPage then
      Run([], Success([]))
    else
      match ResponseAt(up, page)
      case Failed => Run([page], Failure(page))
      case Ok(body) =>
        var rest := FetchFrom(up, page + 1, ReportedTotal(body) - 1);
        var result := if rest.result.Success? then Success(Items(body) + rest.result.value) else rest.result;
        Run([page] + rest.requested, result)
  }

  /**
   * The whole fetch (`page = 0`, `max_page = 1`). Page 0 is always requested;
   * pages follow one another from 0 with no gap or repeat; and the run fails
   * exactly when its last request failed.
   */
  function Fetch<T>(up: Upstream<T>): (r: Run<T>)
    ensures |r.requested| >= 1 && r.requested[0] == 0
    ensures forall i :: 0 <= i < |r.requested| ==> r.requested[i] == i
    ensures forall i :: 0 <= i < |r.requested| - 1 ==> Continues(up, i)
    ensures !Continues(up, |r.requested| - 1)
    ensures r.result.Failure? <==> ResponseAt(up, |r.requested| - 1).Failed?
    ensures r.result.Failure? ==> r.result.error == |r.requested| - 1
  {
    var r := FetchFrom(up, 0, 1);
    assert forall i :: 0 <= i < |r.requested| - 1 ==> Continues(up, i) by {
      forall i | 0 <= i < |r.requested| - 1
        ensures Continues(up, i)
      {
        assert r.requested[i] == i;
      }
    }
    r
  }

  /** Page p + 1 is requested exactly when page p was requested and its answer reports more than p + 1 pages. */
  lemma RequestRule<T>(up: Upstream<T>, p: nat)
    ensures p + 1 in Fetch(up).requested <==> p in Fetch(up).requested && Continues(up, p)
  {
    var req := Fetch(up).requested;
    var n := |req|;
    assert InRequested: forall x: nat :: x in req <==> x < n by {
      forall x: nat
        ensures x in req <==> x < n
      {
        if x < n {
          assert req[x] == x;
        }
      }
    }
    if p + 1 < n {
      assert req[p] == p && req[p + 1] == p + 1;
    } else if p + 1 == n {
      assert req[n - 1] == p;
    }
  }

  /**
   * The loop stops by the counts it is told: when no answered page reports more
   * than t pages (t >= 1), at most t pages are requested.
   */
  lemma RequestsBounded<T>(up: Upstream<T>, t: int)
    requires t >= 1
    requires forall k: nat :: ResponseAt(up, k).Ok? ==> ReportedTotal(ResponseAt(up, k).body) <= t
    ensures |Fetch(up).requested| <= t
  {
    var n := |Fetch(up).requested|;
    assert n > t ==> Continues(up, t - 1);
  }

  /** When every page reports the same count t >= 1, exactly pages 0 .. t - 1 are requested and the fetch succeeds. */
  lemma UniformTotalRequestsExactly<T>(up: Upstream<T>, t: int)
    requires t >= 1
    requires forall k: nat :: k < t ==> ResponseAt(up, k).Ok? && ResponseAt(up, k).body.totalPages == Some(t)
    ensures |Fetch(up).requested| == t
    ensures Fetch(up).result.Success?
  {
    var n := |Fetch(up).requested|;
    assert !Continues(up, t - 1);
    var last: nat := n - 1;
    assert n < t ==> Continues(up, last);
  }

  /** Reference definition: the records of pages lo .. hi - 1, in page order (a failed page contributes none). */
  function PageItems<T>(up: Upstream<T>, lo: nat, hi: nat): seq<T>
    decreases hi
  {
    if hi <= lo then []
    else
      var last := if ResponseAt(up, hi - 1).Ok? then Items(ResponseAt(up, hi - 1).body) else [];
      PageItems(up, lo, hi - 1) + last
  }

  lemma {:induction false} PageItemsPrepend<T>(up: Upstream<T>, lo: nat, hi: nat)
    requires lo < hi
    requires ResponseAt(up, lo).Ok?
    ensures PageItems(up, lo, hi) == Items(ResponseAt(up, lo).body) + PageItems(up, lo + 1, hi)
    decreases hi
  {
    if hi - 1 == lo {
      assert PageItems(up, lo, hi - 1) == [];
      assert PageItems(up, lo + 1, hi) == [];
    } else {
      PageItemsPrepend(up, lo, hi - 1);
    }
  }

  lemma {:induction false} FetchFromConcatenates<T>(up: Upstream<T>, page: nat, maxPage: int)
    ensures var r := FetchFrom(up, page, maxPage);
            r.result.Success? ==> r.result.value == PageItems(up, page, page + |r.requested|)
    decreases |up| - page
  {
    var r := FetchFrom(up, page, maxPage);
    if page <= maxPage && ResponseAt(up, page).Ok? {
      var body := ResponseAt(up, page).body;
      var rest := FetchFrom(up, page + 1, ReportedTotal(body) - 1);
      FetchFromConcatenates(up, page + 1, ReportedTotal(body) - 1);
      if rest.result.Success? {
        PageItemsPrepend(up, page, page + |r.requested|);
      }
    }
  }

  /** A successful fetch returns the concatenation of every requested page's records, in page order. */
  lemma ResultIsConcatenation<T>(up: Upstream<T>)
    ensures Fetch(up).result.Success? ==> Fetch(up).result.value == PageItems(up, 0, |Fetch(up).requested|)
  {
    FetchFromConcatenates(up, 0, 1);
  }

  /** Two responses the loop cannot tell apart: both failed, or both answered with the same count and the same records. */
  ghost predicate Indistinguishable<T>(a: Response<T>, b: Response<T>)
  {
    (a.Failed? && b.Failed?)
    || (a.Ok? && b.Ok? && ReportedTotal(a.body) == ReportedTotal(b.body) && Items(a.body) == Items(b.body))
  }

  lemma {:induction false} FetchFromCongruent<T>(up1: Upstream<T>, up2: Upstream<T>, page: nat, maxPage: int)
    requires forall k: nat :: Indistinguishable(ResponseAt(up1, k), ResponseAt(up2, k))
    ensures FetchFrom(up1, page, maxPage) == FetchFrom(up2, page, maxPage)
    decreases |up1| - page
  {
    if page <= maxPage {
      assert Indistinguishable(ResponseAt(up1, page), ResponseAt(up2, page));
      if ResponseAt(up1, page).Ok? {
        FetchFromCongruent(up1, up2, page + 1, ReportedTotal(ResponseAt(up1, page).body) - 1);
      }
    }
  }

  /** A page without the list key behaves exactly like a page whose list is empty. */
  lemma MissingListIsEmptyList<T>(up: Upstream<T>, k: nat, total: Option<int>)
    requires k < |up|
    ensures Fetch(up[k := Ok(Page(total, None))]) == Fetch(up[k := Ok(Page(total, Some([])))])
  {
    var up1 := up[k := Ok(Page(total, None))];
    var up2 := up[k := Ok(Page(total, Some([])))];
    forall j: nat
      ensures Indistinguishable(ResponseAt(up1, j), ResponseAt(up2, j))
    {
    }
    FetchFromCongruent(up1, up2, 0, 1);
  }
}

=== FILE: wrappers.dfy ===
/** Optional values and results with an error, usable with `:-`. */
module Wrappers {

  /** A value that may be absent: Python's `None` for a nullable column or a missing key. */
  datatype Option<+T> = None | Some(value: T) {

    /** The value, or `default` when absent (the shape of `dict.get(key, default)`). */
    function GetOr(default: T): T {
      match this
      case Some(v) => v
      case None => default
    }
  }

  /** The outcome of an operation that may raise an error instead of returning. */
  datatype Result<+R, +E> = Success(value: R) | Failure(error: E) {

    predicate IsFailure() {
      Failure?
    }

    function PropagateFailure<U>(): Result<U, E>
      requires Failure?
    {
      Failure(error)
    }

    function Extract(): R
      requires Success?
    {
      value
    }
  }
}
